=== FILE: README.md ===
# GraphSource: an org chart's observable graph, in Dafny

This project models the graph source behind the org chart diagram
(`Diagram/OrgChart/ViewModels/GraphSource.cs`). The graph source owns two
ordered collections:

- the **items**, the nodes of the diagram, which `AddNode` keeps free of
  duplicates;
- the **links**, the directed edges, which accept duplicates.

It flattens a domain tree into those collections (`PopulateGraphSource`:
depth-first, pre-order, one link per parent/child edge). It lets the diagram
surface create, add and remove nodes and links and clear everything. It can
also swap in a new, empty items collection, which raises an `"Items"`
property-change notification.

The model is functional. A `GraphSource` is an immutable record of the two
sequences. It also holds a number identifying the current items collection
object and a count of the `"Items"` notifications raised so far. Each operation
returns the new record. The domain tree is the inductive datatype
`Tree(id, children)`, so a tree is finite and acyclic by construction. Nodes are
identities (`NodeId = nat`) and a link is the record `Link(source, target)`.

Files and modules:

- `collections.dfy` (`Collections`): what an observable collection does for the
  graph source. This covers the guarded append, the first-occurrence `Remove`
  built on `IndexOf`, and the fold of guarded appends that population performs
  on the items.
- `entities.dfy` (`Entities`): `NodeId`, `Link`, `Tree`, and the reference
  traversals that population is proved against: `PreOrder`, `Edges` and
  `IsTreeEdge`.
- `graph_source.dfy` (`GraphSources`): the state, the mutators, the two
  factories, `ChangeItemsCollection`, and the no-duplicates invariant `Valid`.
- `population.dfy` (`Population`): `Populate`, which follows
  `PopulateGraphSource` call for call, and its properties.
- `operations.dfy` (`Operations`): requests against a graph source, and runs of
  requests. The requests are the interface's `AddNode`, `AddLink`, `RemoveNode`
  and `RemoveLink` (its explicit members only forward, so each of these is the
  operation it forwards to), plus the class's own public `Clear`,
  `PopulateGraphSource` and `ChangeItemsCollection`.

`ChangeItemsCollection` raises the `"Items"` notification only when a handler
is attached (`PropertyChanged != null`). The model takes this as a `subscribed`
flag. So a replacement raises exactly one notification only while someone
listens, and none otherwise.

## Model

| member | source | states |
|---|---|---|
| `Collections.AppendIfAbsent` | Diagram/OrgChart/ViewModels/GraphSource.cs:178-182 | the guarded add: the element is present afterwards; the old entries stay in front; the length grows by one exactly when the element was absent; no duplicates are introduced |
| `Collections.RemoveFirst` | Diagram/OrgChart/ViewModels/GraphSource.cs:197-209 | the result is true iff the element was present; only its first occurrence is removed and the rest keep their order; the multiset loses exactly that element; on a duplicate-free collection the element is gone afterwards |
| `Collections.RemoveFirstKeepsOnly` | Diagram/OrgChart/ViewModels/GraphSource.cs:197-200 | removal never brings in an element that was not there |
| `Collections.AppendAllAbsentExtends` | Diagram/OrgChart/ViewModels/GraphSource.cs:13-22 | a sequence of guarded adds only appends, at most one entry per element offered |
| `Collections.AppendAllAbsentMembers` | Diagram/OrgChart/ViewModels/GraphSource.cs:13-22 | after a sequence of guarded adds, exactly the old elements and the offered ones are present |
| `Collections.AppendAllAbsentDistinct` | Diagram/OrgChart/ViewModels/GraphSource.cs:178-182 | guarded adds keep a collection free of duplicates |
| `Collections.AppendAllAbsentConcat` | Diagram/OrgChart/ViewModels/GraphSource.cs:13-22 | offering `a + b` is offering `a`, then `b` |
| `Collections.AppendAllAbsentFresh` | Diagram/OrgChart/ViewModels/GraphSource.cs:13-22 | when the offered elements are distinct and all absent, every one of them is appended, in order |
| `Collections.AppendAllAbsentPresent` | Diagram/OrgChart/ViewModels/GraphSource.cs:178-182 | when every offered element is already present, nothing changes |
| `Collections.RemoveFirstUndoesAppend` | Diagram/OrgChart/ViewModels/GraphSource.cs:197-209 | removing an element that was just appended, and was absent before, restores the collection |
| `Entities.PreOrderLength` | Diagram/OrgChart/ViewModels/GraphSource.cs:13-22 | the pre-order visit has one entry per tree node |
| `Entities.EdgeTargetsFollowPreOrder` | Diagram/OrgChart/ViewModels/GraphSource.cs:13-22 | the k-th link discovered leads to the (k+1)-th node visited, so every node except the root is entered by exactly one link, in visiting order |
| `Entities.EdgeCount` | Diagram/OrgChart/ViewModels/GraphSource.cs:13-22 | a tree of n nodes has n - 1 discovered links |
| `Entities.EdgesAreTreeEdges` | Diagram/OrgChart/ViewModels/GraphSource.cs:16-19 | a link is discovered iff it joins some node of the tree to one of that node's children |
| `Entities.EdgeEndpointsInTree` | Diagram/OrgChart/ViewModels/GraphSource.cs:16-19 | both endpoints of every discovered link are nodes of the tree |
| `GraphSources.Create` | Diagram/OrgChart/ViewModels/GraphSource.cs:134-138 | a new graph source has empty items and links and no notification raised |
| `GraphSources.AddNode` | Diagram/OrgChart/ViewModels/GraphSource.cs:178-182 | the node is appended iff it was absent; a present node leaves everything unchanged; the links are never touched; no duplicates are introduced |
| `GraphSources.AddLink` | Diagram/OrgChart/ViewModels/GraphSource.cs:188-191 | the link is always appended, so the links grow by exactly one and its count grows by one even if an equal link is present; the items are untouched |
| `GraphSources.RemoveLink` | Diagram/OrgChart/ViewModels/GraphSource.cs:197-200 | true iff an equal link was present; only its first occurrence is removed and the others keep their order; the items are untouched; when no two links are equal the link is gone afterwards |
| `GraphSources.RemoveItem` | Diagram/OrgChart/ViewModels/GraphSource.cs:206-209 | true iff the node was present; only its first occurrence is removed and the others keep their order; the links are untouched; a duplicate-free items collection stays so and no longer holds the node |
| `GraphSources.ClearSteps` | Diagram/OrgChart/ViewModels/GraphSource.cs:214-218 | a clear empties the links first, with the items still unchanged, then the items |
| `GraphSources.Clear` | Diagram/OrgChart/ViewModels/GraphSource.cs:214-218 | both collections are empty afterwards; the items collection object is kept and nothing is notified |
| `GraphSources.ClearNeverExposesDanglingLinks` | Diagram/OrgChart/ViewModels/GraphSource.cs:214-218 | because links are cleared first, no intermediate state of a clear has a link to a missing node |
| `GraphSources.ChangeItemsCollection` | Diagram/OrgChart/ViewModels/GraphSource.cs:25-32 | the items become a new, empty collection object; the links are unchanged; one `"Items"` notification is raised iff a handler is attached |
| `GraphSources.CreateLink` | Diagram/OrgChart/ViewModels/GraphSource.cs:109-115 | the new link's source and target are the given endpoints; the link is only returned, not added |
| `GraphSources.CreateLinkFromEndpoints` | Diagram/OrgChart/ViewModels/GraphSource.cs:109-115 | the factory rebuilds any link from its source and target |
| `GraphSources.CreateNode` | Diagram/OrgChart/ViewModels/GraphSource.cs:124-127 | the new node differs from every node in the items and every link endpoint; it is only returned, not added |
| `GraphSources.AddNodeIdempotent` | Diagram/OrgChart/ViewModels/GraphSource.cs:178-182 | adding the same node twice is the same as adding it once |
| `GraphSources.AddLinkTwiceKeepsBoth` | Diagram/OrgChart/ViewModels/GraphSource.cs:188-191 | adding the same link twice adds two entries: links are not deduplicated |
| `GraphSources.RemoveItemUndoesAddNode` | Diagram/OrgChart/ViewModels/GraphSource.cs:206-209 | removing a node that was just added, and was absent before, restores the graph source and returns true |
| `GraphSources.RemoveLinkUndoesAddLink` | Diagram/OrgChart/ViewModels/GraphSource.cs:197-200 | removing a link that was just added, and was absent before, restores the graph source and returns true |
| `GraphSources.RemoveItemDoesNotCascade` | Diagram/OrgChart/ViewModels/GraphSource.cs:206-209 | removing a node keeps every link that mentions it |
| `GraphSources.AddLinkDoesNotCheckEndpoints` | Diagram/OrgChart/ViewModels/GraphSource.cs:188-191 | for every graph source, adding a link with an endpoint missing from the items is accepted and leaves a link to a missing node |
| `GraphSources.RemoveItemCanLeaveDanglingLink` | Diagram/OrgChart/ViewModels/GraphSource.cs:206-209 | for every duplicate-free graph source, removing a node that some link mentions leaves a link to a node no longer among the items |
| `GraphSources.ChangeItemsCollectionStrandsLinks` | Diagram/OrgChart/ViewModels/GraphSource.cs:25-32 | replacing the items collection while any link is held leaves a link to a node missing from the items, because the links are kept |
| `Population.Populate` | Diagram/OrgChart/ViewModels/GraphSource.cs:13-22 | population appends the tree's parent/child links after the existing links, in pre-order discovery order, and changes neither the items collection object nor the notification count |
| `Population.PopulateChildren` | Diagram/OrgChart/ViewModels/GraphSource.cs:16-21 | the loop over a node's children appends, child after child, the link to the child followed by the child subtree's links, and changes neither the items collection object nor the notification count |
| `Population.PopulateItems` | Diagram/OrgChart/ViewModels/GraphSource.cs:13-22 | population offers the tree's nodes to the items in depth-first pre-order, skipping each node present at the moment it is visited |
| `Population.PopulateLinkCount` | Diagram/OrgChart/ViewModels/GraphSource.cs:16-20 | population of a tree of n nodes always adds exactly n - 1 links and keeps the old links in front |
| `Population.PopulateAppendsTreeEdges` | Diagram/OrgChart/ViewModels/GraphSource.cs:16-20 | the appended links are exactly the tree's parent/child pairs |
| `Population.PopulateItemsMembership` | Diagram/OrgChart/ViewModels/GraphSource.cs:13-22 | after population a node is an item iff it was one before or it is in the tree |
| `Population.PopulateKeepsItems` | Diagram/OrgChart/ViewModels/GraphSource.cs:13-22 | population keeps the old items in front, adds at most one item per tree node, and introduces no duplicate |
| `Population.PopulateFreshTree` | Diagram/OrgChart/ViewModels/GraphSource.cs:13-22 | when the tree's identities are distinct and all absent, the items grow by the pre-order sequence, one entry per tree node |
| `Population.PopulateAgain` | Diagram/OrgChart/ViewModels/GraphSource.cs:13-22 | populating the same tree again adds no items but appends every link again |
| `Population.PopulateKeepsLinksClosed` | Diagram/OrgChart/ViewModels/GraphSource.cs:13-22 | after population every link's endpoints are items, provided that held before |
| `Population.PopulateExposesDanglingLink` | Diagram/OrgChart/ViewModels/GraphSource.cs:18-20 | population adds the link to a child before the child itself, so the state it continues from after the first child's link holds a link to a node not yet among the items whenever that child was absent |
| `Population.PopulateExampleItems` | Diagram/OrgChart/ViewModels/GraphSource.cs:13-22 | for A -> [B, C], B -> [D], populated into a graph source with no items, the items become A, B, D, C |
| `Population.PopulateExampleLinks` | Diagram/OrgChart/ViewModels/GraphSource.cs:16-20 | for A -> [B, C], B -> [D], populated into a graph source with no links, the links become (A, B), (B, D), (A, C) |
| `Operations.Apply` | Diagram/OrgChart/ViewModels/GraphSource.cs:13-218 | every request keeps the items free of duplicates; only replacing the items collection raises an `"Items"` notification, exactly one when a handler is attached, and only it changes the collection object; node requests leave the links alone and link requests leave the items alone |
| `Operations.RunPreservesValid` | Diagram/OrgChart/ViewModels/GraphSource.cs:13-218 | any sequence of requests from a duplicate-free state leaves the items duplicate-free |
| `Operations.RunNotifications` | Diagram/OrgChart/ViewModels/GraphSource.cs:25-32 | over a run, the notifications raised equal the number of replacements with a handler attached, and the collection object changes once per replacement |

## Left out

- The framework base types and interfaces (`ViewModelBase`, `IObservableGraphSource`, `ILink`, `IShape`) belong to a foreign UI library. The model keeps only the behaviour of the members this class defines.
- The `(Link)` and `(Node)` casts in this class's explicit interface members (`GraphSource.cs` lines 44, 53, 88 and 98) throw `InvalidCastException` out of those members when the argument has another type. The four requests that stand for those members carry only a `NodeId` or a `Link`, so that failure cannot be represented. `Operations.Apply` forwards each request to the operation it names and drops the boolean that removals return.
- Construction by reflection (`System.Activator.CreateInstance`) has no Dafny counterpart. `CreateLink` builds the record directly, and `CreateNode` picks a new identity.
- GraphSources.CreateNode: freshness is stated only against the nodes and link endpoints the graph source holds. A new object is also distinct from nodes held elsewhere, for example in a tree not yet populated, but the model has no global heap.
- The shape argument of `CreateNode` is ignored by the source, so the model drops it.
- Link endpoints of arbitrary object type are not modelled. Endpoints are node identities only.
- The per-element `CollectionChanged` events of the two collections and the mechanics of the `PropertyChanged` delegate are UI plumbing. The model keeps the count of `"Items"` notifications, the identity of the items collection object, and the order in which a clear empties the collections (`ClearSteps`).
- The `Node` and `Link` class bodies are not part of this model. Nodes are compared by identity. Links are compared by value, `(source, target)`, whereas `Collection<T>.Remove` compares link objects by reference.
- GraphSources.RemoveLink: when two links with the same endpoints are held, the model removes the first of them, while the source removes the very instance passed. For example, with links (1,2), (3,4) and a second (1,2) instance added, removing that second instance gives back (1,2), (3,4) in the source but (3,4), (1,2) in the model. A new instance equal in value to a held link, such as one from `CreateLink`, is not in the source's collection, so the source returns false and changes nothing. The model returns true and removes the held link. Such duplicates arise, for example, when the same tree is populated twice. The two agree only when the argument is the very instance held and no other held link equals it. The contract's promise that the link is gone when no two held links are equal is about the model's value equality. The source may instead return false and keep the link, when the argument is a different instance.
- GraphSources.RemoveLinkUndoesAddLink: the round trip is stated only when no equal link is held. By reference, removing the instance just added always restores the links, but links carry no instance identity here.
- GraphSources.Valid: the getters of `InternalItems` and `InternalLinks` are public and return the live collections, so any caller can add, insert or remove elements directly and bypass `AddNode`'s guard. The no-duplicates invariant, and every property here, holds only for changes made through the class's own members. The model has no operation for such direct changes.
- Null references are not modelled. The source accepts `null` as the argument of `AddNode`, which adds it, and of `AddLink`, `RemoveLink` and `RemoveItem`. A tree with a `null` child makes `PopulateGraphSource` add a link to `null` and add `null` to the items, then throw `NullReferenceException` when it reads the null child's `Children`. That leaves the graph source partly populated. `NodeId` and `Tree` have no null value, so neither the null arguments nor the exception and its partial effects are represented.
- Overriding the virtual members in a subclass is not modelled.
- Cyclic input trees cannot be represented by an inductive datatype. For them the source recurses without end, and callers must not pass one.

=== FILE: collections.dfy ===
/**
 This module models the part of an observable collection that the graph source
 relies on: membership (`Contains`), appending (`Add`), and removal of the first
 equal element (`Remove`, which locates the element with `IndexOf` and then
 removes it at that index). Collections are ordered, so they are sequences.
 */
module Collections {

  /** No element occurs twice. */
  predicate Distinct<T(==)>(s: seq<T>) {
    forall i, j :: 0 <= i < j < |s| ==> s[i] != s[j]
  }

  /** Appends `x` unless it is already present: the guarded add of a node. */
  function AppendIfAbsent<T(==)>(s: seq<T>, x: T): (r: seq<T>)
    ensures x in s ==> r == s
    ensures |r| == if x in s then |s| else |s| + 1
    ensures r[..|s|] == s
    ensures x in r
    ensures Distinct(s) ==> Distinct(r)
  {
    if x in s then s else s + [x]
  }

  /** Appends every element of `xs`, in order, each one only if it is absent at that moment. */
  function AppendAllAbsent<T(==)>(s: seq<T>, xs: seq<T>): seq<T>
    decreases |xs|
  {
    if xs == [] then s else AppendAllAbsent(AppendIfAbsent(s, xs[0]), xs[1..])
  }

  /** Appending only ever adds at the end, at most one entry per element of `xs`. */
  lemma {:induction false} AppendAllAbsentExtends<T>(s: seq<T>, xs: seq<T>)
    ensures |s| <= |AppendAllAbsent(s, xs)| <= |s| + |xs|
    ensures AppendAllAbsent(s, xs)[..|s|] == s
    decreases |xs|
  {
    if xs != [] {
      var s' := AppendIfAbsent(s, xs[0]);
      AppendAllAbsentExtends(s', xs[1..]);
      assert AppendAllAbsent(s, xs)[..|s'|][..|s|] == AppendAllAbsent(s, xs)[..|s|];
    }
  }

  /** Afterwards exactly the elements of `s` and of `xs` are present. */
  lemma {:induction false} AppendAllAbsentMembers<T>(s: seq<T>, xs: seq<T>, y: T)
    ensures y in AppendAllAbsent(s, xs) <==> y in s || y in xs
    decreases |xs|
  {
    if xs != [] {
      AppendAllAbsentMembers(AppendIfAbsent(s, xs[0]), xs[1..], y);
      assert xs == [xs[0]] + xs[1..];
    }
  }

  /** Appending only absent elements keeps a collection free of duplicates. */
  lemma {:induction false} AppendAllAbsentDistinct<T>(s: seq<T>, xs: seq<T>)
    requires Distinct(s)
    ensures Distinct(AppendAllAbsent(s, xs))
    decreases |xs|
  {
    if xs != [] {
      AppendAllAbsentDistinct(AppendIfAbsent(s, xs[0]), xs[1..]);
    }
  }

  /** Appending `a + b` is appending `a`, then `b`. */
  lemma {:induction false} AppendAllAbsentConcat<T>(s: seq<T>, a: seq<T>, b: seq<T>)
    ensures AppendAllAbsent(s, a + b) == AppendAllAbsent(AppendAllAbsent(s, a), b)
    decreases |a|
  {
    if a == [] {
      assert a + b == b;
    } else {
      assert (a + b)[0] == a[0];
      assert (a + b)[1..] == a[1..] + b;
      AppendAllAbsentConcat(AppendIfAbsent(s, a[0]), a[1..], b);
    }
  }

  /** The tail of a duplicate-free sequence is duplicate-free and lacks the head. */
  lemma DistinctTail<T>(xs: seq<T>)
    requires Distinct(xs) && xs != []
    ensures Distinct(xs[1..]) && xs[0] !in xs[1..]
  {
  }

  /** When every element of `xs` is new and `xs` itself has no repeats, nothing is skipped. */
  lemma {:induction false} AppendAllAbsentFresh<T>(s: seq<T>, xs: seq<T>)
    requires Distinct(xs)
    requires forall x :: x in xs ==> x !in s
    ensures AppendAllAbsent(s, xs) == s + xs
    decreases |xs|
  {
    if xs != [] {
      var x0, rest := xs[0], xs[1..];
      assert xs == [x0] + rest;
      var s' := s + [x0];
      assert AppendIfAbsent(s, x0) == s';
      DistinctTail(xs);
      assert forall x :: x in rest ==> x in xs && x != x0;
      AppendAllAbsentFresh(s', rest);
      assert s' + rest == s + xs;
    }
  }

  /** When every element of `xs` is already present, nothing is appended. */
  lemma {:induction false} AppendAllAbsentPresent<T>(s: seq<T>, xs: seq<T>)
    requires forall x :: x in xs ==> x in s
    ensures AppendAllAbsent(s, xs) == s
    decreases |xs|
  {
    if xs != [] {
      assert xs[0] in xs;
      forall x | x in xs[1..]
        ensures x in s
      {
        var k :| 0 <= k < |xs[1..]| && xs[1..][k] == x;
        assert xs[k + 1] == x;
      }
      AppendAllAbsentPresent(s, xs[1..]);
    }
  }

  /** The position of the first element equal to `x`, or -1 when there is none. */
  function IndexOf<T(==)>(s: seq<T>, x: T): (i: int)
    ensures -1 <= i < |s|
    ensures i == -1 <==> x !in s
    ensures 0 <= i ==> s[i] == x && x !in s[..i]
  {
    if s == [] then -1
    else if s[0] == x then 0
    else
      var j := IndexOf(s[1..], x);
      if j < 0 then -1 else j + 1
  }

  /** What removing the entry at position `i` does to a collection. */
  lemma RemoveAtFacts<T>(s: seq<T>, i: nat)
    requires i < |s|
    ensures multiset(s[..i] + s[i + 1..]) == multiset(s) - multiset{s[i]}
    ensures forall y :: y in s[..i] + s[i + 1..] ==> y in s
    ensures Distinct(s) ==> Distinct(s[..i] + s[i + 1..]) && s[i] !in s[..i] + s[i + 1..]
  {
    var rest := s[..i] + s[i + 1..];
    assert s == s[..i] + [s[i]] + s[i + 1..];
    assert multiset(s) == multiset(s[..i]) + multiset{s[i]} + multiset(s[i + 1..]);
    forall y | y in rest
      ensures y in s
    {
      assert y in multiset(rest);
    }
    if Distinct(s) {
      forall a, b | 0 <= a < b < |rest|
        ensures rest[a] != rest[b]
      {
        var a' := if a < i then a else a + 1;
        var b' := if b < i then b else b + 1;
        assert rest[a] == s[a'] && rest[b] == s[b'];
      }
    }
  }

  /**
   Removes the first element equal to `x`; the boolean reports whether one was found.
   Every other element keeps its relative order.
   */
  function RemoveFirst<T(==)>(s: seq<T>, x: T): (r: (bool, seq<T>))
    ensures r.0 <==> x in s
    ensures !r.0 ==> r.1 == s
    ensures r.0 ==> exists i :: 0 <= i < |s| && s[i] == x && x !in s[..i] && r.1 == s[..i] + s[i + 1..]
    ensures |r.1| == if r.0 then |s| - 1 else |s|
    ensures multiset(r.1) == multiset(s) - multiset{x}
    ensures Distinct(s) ==> Distinct(r.1) && x !in r.1
  {
    var i := IndexOf(s, x);
    if i < 0 then (false, s)
    else
      RemoveAtFacts(s, i);
      (true, s[..i] + s[i + 1..])
  }

  /** Removal never brings in an element that was not there. */
  lemma RemoveFirstKeepsOnly<T>(s: seq<T>, x: T, y: T)
    ensures y in RemoveFirst(s, x).1 ==> y in s
  {
    var i := IndexOf(s, x);
    if 0 <= i {
      RemoveAtFacts(s, i);
    }
  }

  /** Removing an element just appended (and absent before) gives back the original collection. */
  lemma RemoveFirstUndoesAppend<T>(s: seq<T>, x: T)
    requires x !in s
    ensures RemoveFirst(s + [x], x) == (true, s)
  {
    var t := s + [x];
    assert t[|s|] == x;
    assert t[..|s|] == s;
    assert IndexOf(t, x) == |s|;
    assert t[..|s|] + t[|s| + 1..] == s;
  }
}

=== FILE: entities.dfy ===
/**
 The entities of the org chart: nodes, the links between them, and the domain
 tree that population walks. A node is known only by its identity; a link is
 the ordered pair of its endpoints. The tree is an inductive datatype, so every
 tree is finite and acyclic by construction.

 The traversal functions here are the reference definitions that population is
 proved against: the depth-first pre-order of the node identities, and the
 parent-to-child edges in the order a pre-order walk discovers them.
 */
module Entities {

  /** The identity of a node. */
  type NodeId = nat

  /** A directed link from `source` to `target`. */
  datatype Link = Link(source: NodeId, target: NodeId)

  /** A domain node with its ordered children. */
  datatype Tree = Tree(id: NodeId, children: seq<Tree>)

  /** Number of nodes in a tree, counting repeated identities separately. */
  function NodeCount(t: Tree): nat {
    1 + ForestCount(t.children)
  }

  function ForestCount(ts: seq<Tree>): nat {
    if ts == [] then 0 else NodeCount(ts[0]) + ForestCount(ts[1..])
  }

  /** Node identities in depth-first pre-order. */
  function PreOrder(t: Tree): seq<NodeId> {
    [t.id] + ForestPreOrder(t.children)
  }

  function ForestPreOrder(ts: seq<Tree>): seq<NodeId> {
    if ts == [] then [] else PreOrder(ts[0]) + ForestPreOrder(ts[1..])
  }

  /** Parent-to-child links in the order a depth-first pre-order walk discovers them. */
  function Edges(t: Tree): seq<Link> {
    ChildEdges(t.id, t.children)
  }

  /** The links below `parent` whose children are `ts`, one sibling subtree after another. */
  function ChildEdges(parent: NodeId, ts: seq<Tree>): seq<Link>
    decreases ts
  {
    if ts == [] then []
    else [Link(parent, ts[0].id)] + Edges(ts[0]) + ChildEdges(parent, ts[1..])
  }

  /** `l` joins some node of `t` to one of that node's children; order plays no part. */
  predicate IsTreeEdge(t: Tree, l: Link) {
    IsForestEdge(t.id, t.children, l)
  }

  /** `l` joins `parent` to the root of one of `ts`, or is an edge inside one of `ts`. */
  predicate IsForestEdge(parent: NodeId, ts: seq<Tree>, l: Link)
    decreases ts
  {
    exists i :: 0 <= i < |ts| && (l == Link(parent, ts[i].id) || IsTreeEdge(ts[i], l))
  }

  /** The endpoints a sequence of links points at. */
  function Targets(ls: seq<Link>): (r: seq<NodeId>)
    ensures |r| == |ls|
    ensures forall k :: 0 <= k < |ls| ==> r[k] == ls[k].target
  {
    if ls == [] then [] else [ls[0].target] + Targets(ls[1..])
  }

  lemma TargetsConcat(a: seq<Link>, b: seq<Link>)
    ensures Targets(a + b) == Targets(a) + Targets(b)
  {
  }

  /** A tree has one node per pre-order entry. */
  lemma {:induction false} PreOrderLength(t: Tree)
    ensures |PreOrder(t)| == NodeCount(t)
  {
    ForestPreOrderLength(t.children);
  }

  lemma {:induction false} ForestPreOrderLength(ts: seq<Tree>)
    ensures |ForestPreOrder(ts)| == ForestCount(ts)
  {
    if ts != [] {
      PreOrderLength(ts[0]);
      ForestPreOrderLength(ts[1..]);
    }
  }

  /**
   The k-th discovered edge leads to the (k+1)-th node of the pre-order: every
   node except the root is entered by exactly one edge, in visiting order.
   */
  lemma {:induction false} EdgeTargetsFollowPreOrder(t: Tree)
    ensures Targets(Edges(t)) == PreOrder(t)[1..]
  {
    ChildEdgeTargets(t.id, t.children);
    assert PreOrder(t)[1..] == ForestPreOrder(t.children);
  }

  lemma {:induction false} ChildEdgeTargets(parent: NodeId, ts: seq<Tree>)
    ensures Targets(ChildEdges(parent, ts)) == ForestPreOrder(ts)
    decreases ts
  {
    if ts != [] {
      var head := [Link(parent, ts[0].id)];
      TargetsConcat(head + Edges(ts[0]), ChildEdges(parent, ts[1..]));
      TargetsConcat(head, Edges(ts[0]));
      EdgeTargetsFollowPreOrder(ts[0]);
      ChildEdgeTargets(parent, ts[1..]);
      assert PreOrder(ts[0]) == [ts[0].id] + PreOrder(ts[0])[1..];
    }
  }

  /** A tree of `n` nodes has `n - 1` edges. */
  lemma EdgeCount(t: Tree)
    ensures |Edges(t)| == NodeCount(t) - 1
  {
    EdgeTargetsFollowPreOrder(t);
    PreOrderLength(t);
  }

  /** The discovered edges are exactly the tree's parent-to-child pairs. */
  lemma {:induction false} EdgesAreTreeEdges(t: Tree, l: Link)
    ensures l in Edges(t) <==> IsTreeEdge(t, l)
    decreases t
  {
    ChildEdgesAreForestEdges(t.id, t.children, l);
  }

  lemma {:induction false} ChildEdgesAreForestEdges(parent: NodeId, ts: seq<Tree>, l: Link)
    ensures l in ChildEdges(parent, ts) <==> IsForestEdge(parent, ts, l)
    decreases ts
  {
    if ts != [] {
      EdgesAreTreeEdges(ts[0], l);
      ChildEdgesAreForestEdges(parent, ts[1..], l);
      if IsForestEdge(parent, ts[1..], l) {
        var i :| 0 <= i < |ts[1..]| && (l == Link(parent, ts[1..][i].id) || IsTreeEdge(ts[1..][i], l));
        assert ts[i + 1] == ts[1..][i];
      }
      if IsForestEdge(parent, ts, l) {
        var i :| 0 <= i < |ts| && (l == Link(parent, ts[i].id) || IsTreeEdge(ts[i], l));
        if i > 0 {
          assert ts[1..][i - 1] == ts[i];
        }
      }
    }
  }

  /** Both endpoints of every discovered edge are nodes of the tree. */
  lemma {:induction false} EdgeEndpointsInTree(t: Tree)
    ensures forall l :: l in Edges(t) ==> l.source in PreOrder(t) && l.target in PreOrder(t)
    decreases t
  {
    ChildEdgeEndpoints(t.id, t.children);
  }

  lemma {:induction false} ChildEdgeEndpoints(parent: NodeId, ts: seq<Tree>)
    ensures forall l :: l in ChildEdges(parent, ts) ==>
      (l.source == parent || l.source in ForestPreOrder(ts)) && l.target in ForestPreOrder(ts)
    decreases ts
  {
    if ts != [] {
      EdgeEndpointsInTree(ts[0]);
      ChildEdgeEndpoints(parent, ts[1..]);
      assert ts[0].id in PreOrder(ts[0]);
    }
  }
}

=== FILE: graph_source.dfy ===
/**
 The graph source: two ordered collections, `items` (the nodes) and `links`,
 and the operations a diagram surface calls on them.

 The state is an immutable record and every operation returns the new record.
 Besides the two collections it records which items collection object is
 current (`itemsCollection`, a new number each time the collection is replaced
 wholesale) and how many "Items" property-change notifications have been raised
 (`itemsNotifications`).
 */
module GraphSources {
  import opened Collections
  import opened Entities

  datatype GraphSource = GraphSource(
    items: seq<NodeId>,
    links: seq<Link>,
    itemsCollection: nat,
    itemsNotifications: nat)

  /** Items hold no duplicates; links may. */
  predicate Valid(g: GraphSource) {
    Distinct(g.items)
  }

  /** Every link joins two nodes that are in the items. The source does not enforce this. */
  predicate LinksClosed(g: GraphSource) {
    forall l :: l in g.links ==> l.source in g.items && l.target in g.items
  }

  /** A new graph source: both collections empty, no notification raised yet. */
  function Create(): (g: GraphSource)
    ensures Valid(g) && LinksClosed(g)
    ensures |g.items| == 0 && |g.links| == 0 && g.itemsNotifications == 0
  {
    GraphSource([], [], 0, 0)
  }

  /**
   Adds `n` to the items unless it is already there; the links, the items
   collection object and the notification count do not change.
   */
  function AddNode(g: GraphSource, n: NodeId): (r: GraphSource)
    ensures r == g.(items := r.items)
    ensures n in g.items ==> r == g
    ensures n !in g.items ==> |r.items| == |g.items| + 1 && r.items[..|g.items|] == g.items && r.items[|g.items|] == n
    ensures forall m :: m in r.items <==> m in g.items || m == n
    ensures Valid(g) ==> Valid(r)
    ensures LinksClosed(g) ==> LinksClosed(r)
  {
    g.(items := AppendIfAbsent(g.items, n))
  }

  /** Appends `l` to the links even when an equal link is already there; the items do not change. */
  function AddLink(g: GraphSource, l: Link): (r: GraphSource)
    ensures r == g.(links := r.links)
    ensures |r.links| == |g.links| + 1
    ensures r.links[..|g.links|] == g.links && r.links[|g.links|] == l
    ensures multiset(r.links)[l] == multiset(g.links)[l] + 1
    ensures Valid(g) ==> Valid(r)
  {
    g.(links := g.links + [l])
  }

  /**
   Removes the first link equal to `l`, reporting whether there was one. The
   items, and the order of the remaining links, do not change.
   */
  function RemoveLink(g: GraphSource, l: Link): (r: (bool, GraphSource))
    ensures r.1 == g.(links := r.1.links)
    ensures r.0 <==> l in g.links
    ensures !r.0 ==> r.1 == g
    ensures r.0 ==> exists i :: 0 <= i < |g.links| && g.links[i] == l && l !in g.links[..i] && r.1.links == g.links[..i] + g.links[i + 1..]
    ensures multiset(r.1.links) == multiset(g.links) - multiset{l}
    ensures Distinct(g.links) ==> Distinct(r.1.links) && l !in r.1.links
    ensures Valid(g) ==> Valid(r.1)
    ensures LinksClosed(g) ==> LinksClosed(r.1)
  {
    var (removed, rest) := RemoveFirst(g.links, l);
    forall x | x in rest
      ensures x in g.links
    {
      RemoveFirstKeepsOnly(g.links, l, x);
    }
    (removed, g.(links := rest))
  }

  /**
   Removes `n` from the items, reporting whether it was there. The links do not
   change, so links that mention `n` stay.
   */
  function RemoveItem(g: GraphSource, n: NodeId): (r: (bool, GraphSource))
    ensures r.1 == g.(items := r.1.items)
    ensures r.0 <==> n in g.items
    ensures !r.0 ==> r.1 == g
    ensures r.0 ==> exists i :: 0 <= i < |g.items| && g.items[i] == n && n !in g.items[..i] && r.1.items == g.items[..i] + g.items[i + 1..]
    ensures multiset(r.1.items) == multiset(g.items) - multiset{n}
    ensures Valid(g) ==> Valid(r.1) && n !in r.1.items
  {
    var (removed, rest) := RemoveFirst(g.items, n);
    (removed, g.(items := rest))
  }

  /**
   The states a clear passes through: the links are emptied first, then the
   items. The same items collection object is kept and nothing is notified.
   */
  function ClearSteps(g: GraphSource): (trace: seq<GraphSource>)
    ensures |trace| == 3 && trace[0] == g
    ensures trace[1] == g.(links := trace[1].links) && |trace[1].links| == 0
    ensures trace[2] == trace[1].(items := trace[2].items) && |trace[2].items| == 0
  {
    var linksCleared := g.(links := []);
    [g, linksCleared, linksCleared.(items := [])]
  }

  /** Empties both collections. */
  function Clear(g: GraphSource): (r: GraphSource)
    ensures |r.items| == 0 && |r.links| == 0
    ensures r.itemsCollection == g.itemsCollection && r.itemsNotifications == g.itemsNotifications
    ensures Valid(r) && LinksClosed(r)
  {
    ClearSteps(g)[2]
  }

  /**
   Because links go first, no state seen during a clear has a link to a node
   that is no longer in the items, provided the starting state had none.
   */
  lemma ClearNeverExposesDanglingLinks(g: GraphSource)
    requires LinksClosed(g)
    ensures forall k :: 0 <= k < |ClearSteps(g)| ==> LinksClosed(ClearSteps(g)[k])
  {
  }

  /**
   Replaces the items collection with a new, empty collection object and, when
   anyone is subscribed to property changes, raises one "Items" notification.
   The links do not change.
   */
  function ChangeItemsCollection(g: GraphSource, subscribed: bool): (r: GraphSource)
    ensures |r.items| == 0
    ensures r.links == g.links
    ensures r.itemsCollection != g.itemsCollection
    ensures r.itemsNotifications == if subscribed then g.itemsNotifications + 1 else g.itemsNotifications
    ensures Valid(r)
  {
    GraphSource([], g.links, g.itemsCollection + 1,
      if subscribed then g.itemsNotifications + 1 else g.itemsNotifications)
  }

  /** A new link from `source` to `target`; it is not added to the links. */
  function CreateLink(source: NodeId, target: NodeId): (l: Link)
    ensures l.source == source && l.target == target
  {
    Link(source, target)
  }

  /** The factory rebuilds any link from its endpoints, so every link it can hold is one it can create. */
  lemma CreateLinkFromEndpoints(l: Link)
    ensures CreateLink(l.source, l.target) == l
  {
  }

  /** An identity strictly above every identity in `ids`. */
  function IdBound(ids: seq<NodeId>): (b: NodeId)
    ensures forall x :: x in ids ==> x < b
  {
    if ids == [] then 0
    else
      var rest := IdBound(ids[1..]);
      assert ids == [ids[0]] + ids[1..];
      if ids[0] < rest then rest else ids[0] + 1
  }

  /** Both endpoints of every link. */
  function Endpoints(ls: seq<Link>): (ids: seq<NodeId>)
    ensures forall l :: l in ls ==> l.source in ids && l.target in ids
  {
    if ls == [] then [] else [ls[0].source, ls[0].target] + Endpoints(ls[1..])
  }

  /**
   A newly constructed node: distinct from every node in the items and from
   every link endpoint. It is not added to the items.
   */
  function CreateNode(g: GraphSource): (n: NodeId)
    ensures n !in g.items
    ensures forall l :: l in g.links ==> l.source != n && l.target != n
  {
    var ids := g.items + Endpoints(g.links);
    assert forall x :: x in g.items ==> x in ids;
    assert forall x :: x in Endpoints(g.links) ==> x in ids;
    IdBound(ids)
  }

  /** Adding the same node twice is the same as adding it once. */
  lemma AddNodeIdempotent(g: GraphSource, n: NodeId)
    ensures AddNode(AddNode(g, n), n) == AddNode(g, n)
  {
  }

  /** Adding the same link twice leaves two more copies of it: links are not deduplicated. */
  lemma AddLinkTwiceKeepsBoth(g: GraphSource, l: Link)
    ensures |AddLink(AddLink(g, l), l).links| == |g.links| + 2
    ensures multiset(AddLink(AddLink(g, l), l).links)[l] == multiset(g.links)[l] + 2
  {
  }

  /** Removing a node just added (and absent before) restores the graph source. */
  lemma RemoveItemUndoesAddNode(g: GraphSource, n: NodeId)
    requires n !in g.items
    ensures RemoveItem(AddNode(g, n), n) == (true, g)
  {
    RemoveFirstUndoesAppend(g.items, n);
  }

  /** Removing a link just added (and absent before) restores the graph source. */
  lemma RemoveLinkUndoesAddLink(g: GraphSource, l: Link)
    requires l !in g.links
    ensures RemoveLink(AddLink(g, l), l) == (true, g)
  {
    RemoveFirstUndoesAppend(g.links, l);
  }

  /** Removing a node keeps every link that mentions it. */
  lemma RemoveItemDoesNotCascade(g: GraphSource, n: NodeId, l: Link)
    requires l in g.links && (l.source == n || l.target == n)
    ensures l in RemoveItem(g, n).1.links
  {
  }

  /** Links are added without checking their endpoints: a link to an absent node is accepted. */
  lemma AddLinkDoesNotCheckEndpoints(g: GraphSource, l: Link)
    requires l.source !in g.items || l.target !in g.items
    ensures !LinksClosed(AddLink(g, l))
  {
    assert AddLink(g, l).links[|g.links|] == l;
  }

  /** Removing a node that a link mentions leaves that link pointing at a node no longer among the items. */
  lemma RemoveItemCanLeaveDanglingLink(g: GraphSource, n: NodeId, l: Link)
    requires Valid(g) && l in g.links && (l.source == n || l.target == n)
    ensures !LinksClosed(RemoveItem(g, n).1)
  {
    RemoveItemDoesNotCascade(g, n, l);
  }

  /** Replacing the items collection keeps every link, so any held link is left pointing at a missing node. */
  lemma ChangeItemsCollectionStrandsLinks(g: GraphSource, subscribed: bool)
    requires |g.links| > 0
    ensures !LinksClosed(ChangeItemsCollection(g, subscribed))
  {
    assert g.links[0] in ChangeItemsCollection(g, subscribed).links;
  }
}

=== FILE: operations.dfy ===
/**
 Requests against a graph source, and what a run of such requests does. The
 requests are the capability interface's AddNode, AddLink, RemoveNode and
 RemoveLink, whose explicit members only forward to the graph source's own
 operations (removing a node through the interface is `RemoveItem`), plus the
 class's own public Clear, PopulateGraphSource and ChangeItemsCollection.
 */
module Operations {
  import opened Entities
  import opened GraphSources
  import opened Population

  datatype Request =
    | AddNodeRequest(node: NodeId)
    | AddLinkRequest(link: Link)
    | RemoveNodeRequest(node: NodeId)
    | RemoveLinkRequest(link: Link)
    | ClearRequest
    | ChangeItemsRequest(subscribed: bool)
    | PopulateRequest(root: Tree)

  /**
   The graph source after one request; the boolean a removal returns is dropped.
   Every request keeps the items free of duplicates. Only replacing the items
   collection raises the "Items" notification, exactly one when someone
   listens, and only it changes the collection object. Node requests leave the
   links alone and link requests leave the items alone.
   */
  function Apply(g: GraphSource, req: Request): (r: GraphSource)
    ensures Valid(g) ==> Valid(r)
    ensures r.itemsNotifications == g.itemsNotifications + (if req == ChangeItemsRequest(true) then 1 else 0)
    ensures r.itemsCollection == g.itemsCollection + (if req.ChangeItemsRequest? then 1 else 0)
    ensures req.AddNodeRequest? || req.RemoveNodeRequest? ==> r.links == g.links
    ensures req.AddLinkRequest? || req.RemoveLinkRequest? ==> r.items == g.items
  {
    match req
    case AddNodeRequest(n) => AddNode(g, n)
    case AddLinkRequest(l) => AddLink(g, l)
    case RemoveNodeRequest(n) => RemoveItem(g, n).1
    case RemoveLinkRequest(l) => RemoveLink(g, l).1
    case ClearRequest => Clear(g)
    case ChangeItemsRequest(subscribed) => ChangeItemsCollection(g, subscribed)
    case PopulateRequest(t) =>
      PopulateKeepsItems(g, t);
      Populate(g, t)
  }

  /** The graph source after the requests, applied in order. */
  function Run(g: GraphSource, reqs: seq<Request>): GraphSource
    decreases |reqs|
  {
    if reqs == [] then g else Run(Apply(g, reqs[0]), reqs[1..])
  }

  /** How many requests replace the items collection while someone listens. */
  function NotifyingRequests(reqs: seq<Request>): nat {
    if reqs == [] then 0
    else (if reqs[0] == ChangeItemsRequest(true) then 1 else 0) + NotifyingRequests(reqs[1..])
  }

  /** How many requests replace the items collection. */
  function ReplacingRequests(reqs: seq<Request>): nat {
    if reqs == [] then 0
    else (if reqs[0].ChangeItemsRequest? then 1 else 0) + ReplacingRequests(reqs[1..])
  }

  /** A run of requests from a valid graph source leaves it valid. */
  lemma {:induction false} RunPreservesValid(g: GraphSource, reqs: seq<Request>)
    requires Valid(g)
    ensures Valid(Run(g, reqs))
    decreases |reqs|
  {
    if reqs != [] {
      RunPreservesValid(Apply(g, reqs[0]), reqs[1..]);
    }
  }

  /** Over a run, notifications and collection replacements are counted exactly. */
  lemma {:induction false} RunNotifications(g: GraphSource, reqs: seq<Request>)
    ensures Run(g, reqs).itemsNotifications == g.itemsNotifications + NotifyingRequests(reqs)
    ensures Run(g, reqs).itemsCollection == g.itemsCollection + ReplacingRequests(reqs)
    decreases |reqs|
  {
    if reqs != [] {
      RunNotifications(Apply(g, reqs[0]), reqs[1..]);
    }
  }
}

=== FILE: population.dfy ===
/**
 Population: flattening a domain tree into the graph source. Each node is added
 (skipped when already present), then for each child in order a link from the
 node to the child is added and the child's subtree is populated before the next
 sibling. The walk is depth-first and pre-order.
 */
module Population {
  import opened Collections
  import opened Entities
  import opened GraphSources

  /**
   Adds `t`'s node, then links to and populates each child in turn. The tree's
   edges are appended to the links in the order a depth-first pre-order walk
   discovers them; the items collection object and the notification count do
   not change.
   */
  function Populate(g: GraphSource, t: Tree): (r: GraphSource)
    ensures r.links == g.links + Edges(t)
    ensures r.itemsCollection == g.itemsCollection && r.itemsNotifications == g.itemsNotifications
    decreases t
  {
    PopulateChildren(AddNode(g, t.id), t.id, t.children)
  }

  /** The loop over the children of `parent`: link to each child, then populate its subtree. */
  function PopulateChildren(g: GraphSource, parent: NodeId, children: seq<Tree>): (r: GraphSource)
    ensures r.links == g.links + ChildEdges(parent, children)
    ensures r.itemsCollection == g.itemsCollection && r.itemsNotifications == g.itemsNotifications
    decreases children
  {
    if children == [] then g
    else
      var child := children[0];
      var link := Link(parent, child.id);
      var linked := AddLink(g, link);
      var afterChild := Populate(linked, child);
      assert linked.links == g.links + [link];
      assert g.links + ChildEdges(parent, children)
        == linked.links + Edges(child) + ChildEdges(parent, children[1..]);
      PopulateChildren(afterChild, parent, children[1..])
  }

  /**
   Population appends the tree's nodes in depth-first pre-order to the items,
   skipping every node that is present at the moment it is visited.
   */
  lemma {:induction false} PopulateItems(g: GraphSource, t: Tree)
    ensures Populate(g, t).items == AppendAllAbsent(g.items, PreOrder(t))
    decreases t
  {
    PopulateChildrenItems(AddNode(g, t.id), t.id, t.children);
    AppendAllAbsentConcat(g.items, [t.id], ForestPreOrder(t.children));
  }

  lemma {:induction false} PopulateChildrenItems(g: GraphSource, parent: NodeId, children: seq<Tree>)
    ensures PopulateChildren(g, parent, children).items == AppendAllAbsent(g.items, ForestPreOrder(children))
    decreases children
  {
    if children != [] {
      var child, siblings := children[0], children[1..];
      var link := Link(parent, child.id);
      var afterChild := Populate(AddLink(g, link), child);
      PopulateItems(AddLink(g, link), child);
      PopulateChildrenItems(afterChild, parent, siblings);
      AppendAllAbsentConcat(g.items, PreOrder(child), ForestPreOrder(siblings));
    }
  }

  /**
   Exactly one link per tree edge is appended, whatever the links held before:
   a tree of `n` nodes adds `n - 1` links and keeps the old ones in front.
   */
  lemma PopulateLinkCount(g: GraphSource, t: Tree)
    ensures |Populate(g, t).links| == |g.links| + NodeCount(t) - 1
    ensures Populate(g, t).links[..|g.links|] == g.links
  {
    EdgeCount(t);
  }

  /** The appended links are exactly the tree's parent-to-child pairs. */
  lemma PopulateAppendsTreeEdges(g: GraphSource, t: Tree, l: Link)
    ensures |g.links| <= |Populate(g, t).links|
    ensures l in Populate(g, t).links[|g.links|..] <==> IsTreeEdge(t, l)
  {
    assert Populate(g, t).links[|g.links|..] == Edges(t);
    EdgesAreTreeEdges(t, l);
  }

  /** After population the items are the old items together with every node of the tree. */
  lemma PopulateItemsMembership(g: GraphSource, t: Tree, n: NodeId)
    ensures n in Populate(g, t).items <==> n in g.items || n in PreOrder(t)
  {
    PopulateItems(g, t);
    AppendAllAbsentMembers(g.items, PreOrder(t), n);
  }

  /** The old items stay in front, in their order, and no duplicate is introduced. */
  lemma PopulateKeepsItems(g: GraphSource, t: Tree)
    ensures |g.items| <= |Populate(g, t).items| <= |g.items| + NodeCount(t)
    ensures Populate(g, t).items[..|g.items|] == g.items
    ensures Valid(g) ==> Valid(Populate(g, t))
  {
    PopulateItems(g, t);
    PreOrderLength(t);
    AppendAllAbsentExtends(g.items, PreOrder(t));
    if Valid(g) {
      AppendAllAbsentDistinct(g.items, PreOrder(t));
    }
  }

  /**
   When the tree's identities are distinct and none is present yet, the items
   grow by the whole pre-order sequence, one entry per tree node.
   */
  lemma PopulateFreshTree(g: GraphSource, t: Tree)
    requires Distinct(PreOrder(t))
    requires forall n :: n in PreOrder(t) ==> n !in g.items
    ensures Populate(g, t).items == g.items + PreOrder(t)
    ensures |Populate(g, t).items| == |g.items| + NodeCount(t)
  {
    PopulateItems(g, t);
    AppendAllAbsentFresh(g.items, PreOrder(t));
    PreOrderLength(t);
  }

  /** Populating the same tree again adds no items but appends every edge a second time. */
  lemma PopulateAgain(g: GraphSource, t: Tree)
    ensures Populate(Populate(g, t), t).items == Populate(g, t).items
    ensures Populate(Populate(g, t), t).links == Populate(g, t).links + Edges(t)
  {
    var once := Populate(g, t);
    forall n | n in PreOrder(t)
      ensures n in once.items
    {
      PopulateItemsMembership(g, t, n);
    }
    PopulateItems(once, t);
    AppendAllAbsentPresent(once.items, PreOrder(t));
  }

  /** After population every link joins two items, provided that held before. */
  lemma PopulateKeepsLinksClosed(g: GraphSource, t: Tree)
    requires LinksClosed(g)
    ensures LinksClosed(Populate(g, t))
  {
    var r := Populate(g, t);
    EdgeEndpointsInTree(t);
    forall l | l in r.links
      ensures l.source in r.items && l.target in r.items
    {
      PopulateItemsMembership(g, t, l.source);
      PopulateItemsMembership(g, t, l.target);
      if l !in g.links {
        assert l in Edges(t);
      }
    }
  }

  /**
   Unlike a clear, population adds the link to a child before it adds the child
   itself. So the state right after the first child's link is added, from which
   the rest of the population continues, holds a link to a node that is not yet
   an item whenever that child was absent.
   */
  lemma PopulateExposesDanglingLink(g: GraphSource, t: Tree)
    requires t.children != [] && t.children[0].id !in g.items && t.children[0].id != t.id
    ensures var linked := AddLink(AddNode(g, t.id), Link(t.id, t.children[0].id));
      !LinksClosed(linked) &&
      Populate(g, t) == PopulateChildren(Populate(linked, t.children[0]), t.id, t.children[1..])
  {
  }

  /** The org chart A -> [B, C], B -> [D], with A, B, C, D numbered 1 to 4. */
  function ExampleChart(): Tree {
    Tree(1, [Tree(2, [Tree(4, [])]), Tree(3, [])])
  }

  lemma ExampleChartPreOrder()
    ensures PreOrder(ExampleChart()) == [1, 2, 4, 3]
  {
  }

  lemma ExampleChartEdges()
    ensures Edges(ExampleChart()) == [Link(1, 2), Link(2, 4), Link(1, 3)]
  {
  }

  /** The example chart's identities are all different. */
  lemma ExampleChartDistinct()
    ensures Distinct(PreOrder(ExampleChart()))
  {
  }

  /** Populating the example chart into a graph source with no items gives the items A, B, D, C. */
  lemma PopulateExampleItems(g: GraphSource)
    requires |g.items| == 0
    ensures Populate(g, ExampleChart()).items == [1, 2, 4, 3]
  {
    ExampleChartDistinct();
    PopulateFreshTree(g, ExampleChart());
    ExampleChartPreOrder();
    assert g.items + PreOrder(ExampleChart()) == PreOrder(ExampleChart());
  }

  /** Populating the example chart into a graph source with no links gives the links (A, B), (B, D), (A, C). */
  lemma PopulateExampleLinks(g: GraphSource)
    requires |g.links| == 0
    ensures Populate(g, ExampleChart()).links == [Link(1, 2), Link(2, 4), Link(1, 3)]
  {
    ExampleChartEdges();
    assert g.links + Edges(ExampleChart()) == Edges(ExampleChart());
  }
}
